=== FILE: README.md ===
# Workflow diagram component, modelled in Dafny

The workflow editor is an Angular component. It lets a user drag four
palette shapes (Start, End, Progress, Arrow) onto an mxGraph canvas, and it
prints the diagram as `{nodes, edges}` JSON after every change. Almost all
of its behaviour belongs to the mxGraph widget. This project models the
component's own logic over the widget's model. That model is taken to be
the ordered list of cells under the default parent, which is the first
child of the root.

- `Cells` (`cells.dfy`): a cell has an id, a value (a string or null), a
  style string, vertex and edge flags, optional source and target endpoint
  ids, and an integer geometry.
- `Editing` (`editing.dfy`): the `isCellEditable` rule. It also holds the
  label edit that the widget allows on editable cells.
- `Palette` (`palette.dfy`): the `hasNode` lookup, the vertex drop factory
  with its `start`/`end` guards, the arrow drop, sequences of drops, and the
  rule of at most one Start and at most one End vertex.
- `Records` and `Exporter` (`records.dfy`, `export.dfy`): the `Node`/`Edge`
  records and the `exportGraph` flattening.
- `Strings` (`strings.dfy`): `String.prototype.includes` and the decimal
  rendering used by the `node-${i}` fallback id.
- `Interplay` (`interplay.dfy`): how these pieces combine. It covers the
  export after a drop, editability in a diagram built from drops and label
  edits, and label edits checked against the cardinality rule.

Palette drops keep the one-Start/one-End rule (`Palette.ReplayKeepsRule`).
Label edits do not. A Progress vertex stays editable after it is renamed,
because its style keeps the Progress fill, and nothing stops it being
renamed to `Start` or `End` (`Interplay.EditableExactlyProgressShapes`).
Moves, resizes, clones and deletions are widget actions outside the model.
`Interplay.EditKeepsRuleIff` gives the exact condition under which an edit
keeps the rule, and `Interplay.RenameProgressToStart` shows an edit that
breaks it. The code does not say whether this is intended, so it is
recorded as a property of the model and not as a defect.

In the `Node` and `Edge` records the `label` field is called `text`,
because `label` is a reserved word in Dafny. `Edge.source` and
`Edge.target` are optional. The record type declares them as `string`, but
the exporter leaves them `undefined` when an end is not connected.

## Model

| member | source | states |
|---|---|---|
| `Editing.RenameEditability` | src/app/graph/graph.component.ts:42-51 | After a rename to `name`, a cell is editable iff it is a vertex and either `name` is `Progress` or its style includes `fillColor=#2196F3`. Cells that are not vertices are never editable, whatever their label or style. |
| `Editing.EditLabel` | src/app/graph/graph.component.ts:39-51 | A label edit is accepted iff the cell is editable. An accepted edit changes only that cell's value and leaves every other child unchanged. |
| `Editing.RenamedProgressStaysEditable` | src/app/graph/graph.component.ts:46-49 | A vertex whose style carries the Progress fill stays editable after any rename. |
| `Editing.PlainProgressRenameLocks` | src/app/graph/graph.component.ts:43-45 | A `Progress` vertex without the Progress fill becomes read-only once it is renamed. |
| `Strings.Includes` | src/app/graph/graph.component.ts:47 | `includes` is true iff the needle occurs at some position of the string. |
| `Strings.IncludesFrom` | src/app/graph/graph.component.ts:47 | The left-to-right search from a position is true iff the needle occurs at or after that position. |
| `Strings.IncludedCharacters` | src/app/graph/graph.component.ts:47 | Every character of an included string is a character of the string that includes it. |
| `Strings.Decimal` | src/app/graph/graph.component.ts:165 | The decimal form of an index is non-empty, is all digits, and has at least two digits from 10 upward. |
| `Strings.DecimalValue` | src/app/graph/graph.component.ts:165 | Read back digit by digit, most significant first, the decimal form of `i` spells exactly `i`, and it has no leading zero unless it is `0`. |
| `Strings.DecimalInjective` | src/app/graph/graph.component.ts:165 | Different indices have different decimal forms. |
| `Strings.PrefixedDecimalInjective` | src/app/graph/graph.component.ts:165 | A shared prefix such as `node-` keeps different indices' ids apart. |
| `Palette.HasNode` | src/app/graph/graph.component.ts:136-148 | `hasNode(name)` is true iff some child is a vertex whose value is exactly `name`. Edges with that value do not count. |
| `Palette.ScanFrom` | src/app/graph/graph.component.ts:141-147 | The scan from index `i` is true iff such a vertex exists at index `i` or later. |
| `Palette.CountLabelled` | src/app/graph/graph.component.ts:141-146 | The count of vertices with a given label is at most the number of children. It is zero iff `hasNode` finds none. |
| `Palette.CountAppend` | src/app/graph/graph.component.ts:141-146 | Counting adds up over appended children. |
| `Palette.DropVertex` | src/app/graph/graph.component.ts:63-86 | A `start` drop is rejected iff a Start vertex exists, and an `end` drop iff an End vertex exists. A rejected drop returns null and leaves the children unchanged. `progress` and `generic` drops are always accepted. An accepted drop appends one vertex, and returns it, with the shape's label and style, the given id, no endpoints, and geometry (x, y, w, h) at the drop point. |
| `Palette.DropArrow` | src/app/graph/graph.component.ts:124-131 | An arrow drop appends exactly three cells and keeps the earlier children. The cells are an anchor vertex at (x, y) of size 40x20, a second anchor at (x+100, y), and an edge (not a vertex) from the first anchor's id to the second's. It returns that edge. |
| `Palette.VertexDropCount` | src/app/graph/graph.component.ts:74-85 | An accepted vertex drop raises only its own label's count, by one. A rejected drop changes no count. |
| `Palette.ArrowDropCount` | src/app/graph/graph.component.ts:128-131 | An arrow drop changes the count of no non-empty label. |
| `Palette.CountUnchangedByOthers` | src/app/graph/graph.component.ts:141-146 | Appending cells that are not vertices with a given label leaves that label's count unchanged. |
| `Palette.ApplyKeepsRule` | src/app/graph/graph.component.ts:75-85 | No single palette drop creates a second Start or End vertex. |
| `Palette.ReplayKeepsRule` | src/app/graph/graph.component.ts:74-133 | Any sequence of palette drops keeps at most one Start and at most one End vertex. |
| `Palette.DropsKeepOneStartOneEnd` | src/app/graph/graph.component.ts:75-82 | Starting from an empty diagram, drops alone never yield two Start or two End vertices. |
| `Palette.StartDropLeavesExactlyOne` | src/app/graph/graph.component.ts:75-78 | In a diagram with at most one Start vertex, a Start drop, accepted or rejected, leaves exactly one Start vertex. |
| `Palette.EndDropLeavesExactlyOne` | src/app/graph/graph.component.ts:79-82 | In a diagram with at most one End vertex, an End drop, accepted or rejected, leaves exactly one End vertex. |
| `Exporter.Export` | src/app/graph/graph.component.ts:150-181 | `exportGraph` walks the children once. Each child yields at most one record: a node via `Classify`, `NodeOf`, `NodeId` and `LabelOf`, or an edge via `EdgeOf`. So the export never has more records than there are children, and an empty diagram exports nothing. |
| `Exporter.Positions` | src/app/graph/graph.component.ts:159-181 | The positions of a class of child are listed in strictly increasing order. The list contains exactly the indices of that class: the vertex test first, then the edge test, otherwise skipped. |
| `Exporter.ExportNodesInOrder` | src/app/graph/graph.component.ts:159-172 | The j-th exported node is the record of the j-th vertex child, taken at that child's index. |
| `Exporter.ExportEdgesInOrder` | src/app/graph/graph.component.ts:173-180 | The j-th exported edge is the record of the j-th child that is an edge and not a vertex. |
| `Exporter.PositionsPartition` | src/app/graph/graph.component.ts:159-181 | Every child falls in exactly one of the three classes. |
| `Exporter.ExportSize` | src/app/graph/graph.component.ts:159-181 | The node count plus the edge count is at most the child count. The two are equal iff every child is a vertex or an edge. |
| `Exporter.BothFlagsExportAsNode` | src/app/graph/graph.component.ts:162-173 | A cell flagged as both vertex and edge is exported as a node and never as an edge. |
| `Exporter.ExportNodeIds` | src/app/graph/graph.component.ts:165 | No exported node id is empty. The `node-${i}` ids made up for cells without an id are pairwise distinct. |
| `Exporter.ExportSnoc` | src/app/graph/graph.component.ts:159-181 | One more child keeps the earlier records. It adds one node, one edge, or nothing at the end of the lists, according to its class. |
| `Interplay.ExportAfterArrow` | src/app/graph/graph.component.ts:128-131 | After an arrow drop the export gains two anchor nodes and one unlabelled edge, with source and target equal to the anchors' ids. Earlier records are unchanged. |
| `Interplay.ExportedArrowJoinsAnchors` | src/app/graph/graph.component.ts:174-177 | When the anchors have ids, the exported arrow's source and target are the ids of the two nodes exported just before it. |
| `Interplay.ExportAfterVertexDrop` | src/app/graph/graph.component.ts:84-85 | An accepted vertex drop adds one node at the end with the shape's label, style and size at the drop point. A rejected drop leaves the export unchanged. |
| `Interplay.LacksProgressFill` | src/app/graph/graph.component.ts:47 | A style with no `2` cannot include `fillColor=#2196F3`. |
| `Interplay.ProgressStyleHasFill` | src/app/graph/graph.component.ts:113 | The Progress shape's style includes the Progress fill. |
| `Interplay.ProgressShapeEditableAfterRename` | src/app/graph/graph.component.ts:46-49 | A vertex dropped as a Progress shape stays editable whatever it is renamed to. |
| `Interplay.ReadOnlyWithoutFill` | src/app/graph/graph.component.ts:42-51 | A vertex whose value is not `Progress` and whose style has no `2` is read-only. |
| `Interplay.PaletteCellEditable` | src/app/graph/graph.component.ts:41-51 | Take a cell that drops and edits can produce: a dropped cell, or a Progress shape under any label. It is editable iff it is a vertex with the Progress shape's style. |
| `Interplay.DroppedCellEditable` | src/app/graph/graph.component.ts:41-51 | Among the cells the palette drops create, exactly the vertices labelled `Progress` are editable. |
| `Interplay.ReplayKeepsDroppedCells` | src/app/graph/graph.component.ts:84-131 | Palette drops only ever add the five palette cell shapes. |
| `Interplay.DropsEditableExactlyProgress` | src/app/graph/graph.component.ts:41-51 | In a diagram built only from palette drops, a cell is editable iff it is a vertex labelled `Progress`. |
| `Interplay.ApplyKeepsPaletteCells` | src/app/graph/graph.component.ts:84-131 | A palette drop keeps every child a cell that drops and edits can produce. |
| `Interplay.EditKeepsPaletteCells` | src/app/graph/graph.component.ts:39-51 | An accepted label edit keeps every child such a cell: only a Progress shape is editable, and renaming it leaves a Progress shape. |
| `Interplay.RunKeepsPaletteCells` | src/app/graph/graph.component.ts:39-133 | Any sequence of drops and label edits keeps every child such a cell. |
| `Interplay.EditableExactlyProgressShapes` | src/app/graph/graph.component.ts:39-133 | In a diagram built from drops and label edits, a cell is editable iff it is a vertex with the Progress shape's style. A renamed Progress vertex stays editable, and Start, End, the anchors and the arrow never become editable. |
| `Interplay.CountUpdate` | src/app/graph/graph.component.ts:141-146 | Replacing one child changes a label's count by the cell that leaves and the cell that enters. |
| `Interplay.EditKeepsRuleIff` | src/app/graph/graph.component.ts:75-82 | Take a diagram that meets the rule and an editable cell. The edit keeps the rule iff it does not rename the cell to Start while another Start vertex exists, and does not rename it to End while another End vertex exists. |
| `Interplay.RenameProgressToStart` | src/app/graph/graph.component.ts:42-51 | Drop Start, drop Progress, then rename the Progress vertex to `Start`. The drops keep the rule, the edit is accepted, and it leaves two Start vertices. |

## Left out

- Component start-up (`ngOnInit`, `initGraph`), the platform and `mxGraph`-loaded checks, widget construction, rubber-band selection and listener registration: framework plumbing.
- DOM lookups, `mxUtils.makeDraggable` wiring, `alert`, `console.clear`/`console.log` and JSON formatting: I/O. The model returns the `{nodes, edges}` value that is printed.
- An unused cell that `addVertex` builds at src/app/graph/graph.component.ts:71-72: it is never passed to `makeDraggable` or inserted, so it never enters the model.
- The drop-target cell passed to the drop callbacks: the code ignores it.
- `getPointForEvent` and real-valued geometry: coordinates are integers here, and widths and heights are the integer constants the code passes.
- mxGraph internals: `insertVertex`/`insertEdge` are appends to the children, and the ids the widget assigns are parameters of each drop (`NewIds`).
- An edge endpoint cell without an id: the code at src/app/graph/graph.component.ts:175-176 exports `undefined` for it, while the model exports the empty id. The widget always assigns ids, so drops never produce such a cell.
- A root with no child layer, where `hasNode` is false and the export is empty: the widget always creates the default layer, so the children are taken to exist.
- Cell values other than strings and null, such as user objects: the code never stores one. `typeof value === 'string'` is modelled as "the value is a string".
- Cells without a style: the code gives every cell it creates a style, and `includes` would throw on a missing one.
- The `generic` drop type: it is modelled by `DropVertex`, but no palette entry uses it, so sequences of drops cover only the four registered entries.
- The label edit itself belongs to the widget (`setCellsEditable(true)` plus its in-place editor). It is modelled only as replacing the edited cell's value, and a rename of a missing or read-only cell as no change.
- Other widget interactions that change the children, such as moving, resizing, cloning, deleting or connecting cells by hand: they belong to mxGraph, not the component. So the statements about diagrams built from drops and edits cover only those two actions.
- A vertex without a geometry: the export at src/app/graph/graph.component.ts:163-167 would throw on `geo.x`. Every cell here has a geometry.
- `src/app/app.component.ts`: an Angular root component with no logic.

=== FILE: cells.dfy ===
/**
  The part of the diagram widget's model the workflow component reads and
  writes: the ordered direct children of the default parent (the root's
  first child), each an immutable cell value.
 */
module Cells {

  datatype Option<+T> = None | Some(value: T)

  /** A cell's value: a string, or `Null` for null/undefined. */
  datatype Value = Null | Str(s: string) {

    /** JavaScript truthiness: null and the empty string are falsy. */
    predicate Truthy() {
      Str? && s != ""
    }
  }

  /** A cell's geometry; the widget's coordinates are taken as integers. */
  datatype Geometry = Geometry(x: int, y: int, width: int, height: int)

  /** One cell. An empty `id` stands for a missing (falsy) id when a node
      id is exported. `source` and `target` hold the id of the endpoint cell
      of an edge, `None` when that end is not connected; an endpoint cell
      without an id is not modelled, so its empty id is exported as is. */
  datatype Cell = Cell(
    id: string,
    value: Value,
    style: string,
    vertex: bool,
    edge: bool,
    source: Option<string>,
    target: Option<string>,
    geometry: Geometry)

  /** The ordered direct children of the default parent. */
  type Children = seq<Cell>

  /** A vertex whose value is exactly the string `name`; an edge with that
      value is not one. */
  predicate IsLabelledVertex(c: Cell, name: string) {
    c.vertex && c.value == Str(name)
  }
}

=== FILE: editing.dfy ===
/**
  Which cells may have their label edited in place, and the label edit the
  widget performs on a cell it is allowed to edit.
 */
module Editing {
  import opened Strings
  import opened Cells

  /** The style fragment that marks a Progress shape, renamed or not. */
  const ProgressFill := "fillColor=#2196F3"

  /** The component's editability rule: a vertex whose value is exactly
      `Progress`, or a string-valued vertex whose style carries the Progress
      fill colour. Every other cell, edges included unless also flagged as
      vertices, is read-only. */
  predicate IsCellEditable(c: Cell): (r: bool)
    ensures c.vertex && c.value == Str("Progress") ==> r
    ensures c.vertex && c.value.Str? && Includes(c.style, ProgressFill) ==> r
    ensures r ==> c.vertex && c.value.Str?
    ensures r ==> c.value == Str("Progress") || Includes(c.style, ProgressFill)
  {
    c.vertex && (c.value == Str("Progress") || (c.value.Str? && Includes(c.style, ProgressFill)))
  }

  /** The in-place label edit: rejected (`None`) on a read-only cell;
      otherwise the cell at `i` takes the typed string as its value and
      nothing else changes. */
  function EditLabel(g: Children, i: nat, name: string): (r: Option<Children>)
    requires i < |g|
    ensures r.Some? <==> IsCellEditable(g[i])
    ensures r.Some? ==> |r.value| == |g|
    ensures r.Some? ==> r.value[i] == g[i].(value := Str(name))
    ensures r.Some? ==> forall j :: 0 <= j < |g| && j != i ==> r.value[j] == g[j]
  {
    if IsCellEditable(g[i]) then Some(g[i := g[i].(value := Str(name))]) else None
  }

  /** A vertex carrying the Progress fill stays editable under every
      rename, so a renamed Progress shape can be renamed again. */
  lemma RenamedProgressStaysEditable(g: Children, i: nat, name: string)
    requires i < |g|
    requires g[i].vertex && Includes(g[i].style, ProgressFill)
    requires IsCellEditable(g[i])
    ensures EditLabel(g, i, name).Some?
    ensures IsCellEditable(EditLabel(g, i, name).value[i])
  {
  }

  /** A vertex that is editable only because its value is `Progress` (its
      style lacks the Progress fill) becomes read-only once renamed. */
  lemma PlainProgressRenameLocks(g: Children, i: nat, name: string)
    requires i < |g|
    requires g[i].vertex && g[i].value == Str("Progress")
    requires !Includes(g[i].style, ProgressFill)
    requires name != "Progress"
    ensures EditLabel(g, i, name).Some?
    ensures !IsCellEditable(EditLabel(g, i, name).value[i])
  {
  }

  /** Editability after a rename: the renamed cell is editable iff it is a
      vertex and either the new label is `Progress` or its style carries
      the Progress fill. The old value plays no part. */
  lemma RenameEditability(c: Cell, name: string)
    ensures IsCellEditable(c.(value := Str(name)))
        <==> c.vertex && (name == "Progress" || Includes(c.style, ProgressFill))
  {
  }
}

=== FILE: export.dfy ===
/**
  The exporter: flattens the children of the default parent into the
  `{nodes, edges}` records, in child order. A vertex becomes a node, an edge
  that is not also a vertex becomes an edge record, and any other cell is
  dropped.
 */
module Exporter {
  import opened Strings
  import opened Cells
  import opened Records

  /** The branch of the export loop a cell takes; the vertex test comes
      first, so a cell flagged both vertex and edge is a node. */
  datatype Class = VertexClass | EdgeClass | Skipped

  function Classify(c: Cell): Class {
    if c.vertex then VertexClass else if c.edge then EdgeClass else Skipped
  }

  /** `value || ''`: a falsy value exports as the empty label. */
  function LabelOf(v: Value): string {
    if v.Truthy() then v.s else ""
  }

  const FallbackPrefix := "node-"

  /** `id || `node-${i}``: a falsy id is replaced by one built from the
      child index. */
  function NodeId(c: Cell, i: nat): string {
    if c.id != "" then c.id else FallbackPrefix + Decimal(i)
  }

  /** The node record of the vertex at child index `i`. */
  function NodeOf(c: Cell, i: nat): Node {
    Node(NodeId(c, i), LabelOf(c.value), c.geometry.x, c.geometry.y,
         c.geometry.width, c.geometry.height, c.style)
  }

  /** The edge record of an edge cell; a missing endpoint stays undefined. */
  function EdgeOf(c: Cell): Edge {
    Edge(c.source, c.target, LabelOf(c.value), c.style)
  }

  /** The child indices of class `k`, listed in increasing order, each
      exactly once. */
  function Positions(g: Children, k: Class): (p: seq<nat>)
    ensures forall j :: 0 <= j < |p| ==> p[j] < |g| && Classify(g[p[j]]) == k
    ensures forall j, j' :: 0 <= j < j' < |p| ==> p[j] < p[j']
    ensures forall i :: 0 <= i < |g| && Classify(g[i]) == k ==> i in p
  {
    if |g| == 0 then []
    else
      var init := g[..|g| - 1];
      assert forall i :: 0 <= i < |init| ==> init[i] == g[i];
      var p := Positions(init, k);
      if Classify(g[|g| - 1]) == k then p + [|g| - 1] else p
  }

  /** `exportGraph`: one pass over the children in index order, pushing a
      node record for a vertex and an edge record for an edge. Each child
      yields at most one record, so there are never more records than
      children, and an empty diagram exports nothing. */
  function Export(g: Children): (w: Workflow)
    ensures |w.nodes| + |w.edges| <= |g|
  {
    if |g| == 0 then Workflow([], [])
    else
      var i := |g| - 1;
      var w := Export(g[..i]);
      match Classify(g[i])
      case VertexClass => Workflow(w.nodes + [NodeOf(g[i], i)], w.edges)
      case EdgeClass => Workflow(w.nodes, w.edges + [EdgeOf(g[i])])
      case Skipped => w
  }

  /** The j-th exported node is the record of the j-th vertex child. */
  lemma {:induction false} ExportNodesInOrder(g: Children)
    ensures var p := Positions(g, VertexClass);
      && |Export(g).nodes| == |p|
      && forall j :: 0 <= j < |p| ==> Export(g).nodes[j] == NodeOf(g[p[j]], p[j])
  {
    if |g| > 0 {
      var i := |g| - 1;
      var init := g[..i];
      assert forall k :: 0 <= k < |init| ==> init[k] == g[k];
      ExportNodesInOrder(init);
    }
  }

  /** The j-th exported edge is the record of the j-th child that is an edge
      and not a vertex. */
  lemma {:induction false} ExportEdgesInOrder(g: Children)
    ensures var q := Positions(g, EdgeClass);
      && |Export(g).edges| == |q|
      && forall j :: 0 <= j < |q| ==> Export(g).edges[j] == EdgeOf(g[q[j]])
  {
    if |g| > 0 {
      var i := |g| - 1;
      var init := g[..i];
      assert forall k :: 0 <= k < |init| ==> init[k] == g[k];
      ExportEdgesInOrder(init);
    }
  }

  /** Every child falls in exactly one class, so the three position lists
      together have one entry per child. */
  lemma {:induction false} PositionsPartition(g: Children)
    ensures |Positions(g, VertexClass)| + |Positions(g, EdgeClass)| + |Positions(g, Skipped)| == |g|
  {
    if |g| > 0 {
      PositionsPartition(g[..|g| - 1]);
    }
  }

  /** The export never has more records than there are children, and has
      exactly as many iff every child is a vertex or an edge. */
  lemma ExportSize(g: Children)
    ensures |Export(g).nodes| + |Export(g).edges| <= |g|
    ensures |Export(g).nodes| + |Export(g).edges| == |g|
        <==> forall i :: 0 <= i < |g| ==> g[i].vertex || g[i].edge
  {
    ExportNodesInOrder(g);
    ExportEdgesInOrder(g);
    PositionsPartition(g);
    var s := Positions(g, Skipped);
    if |s| > 0 {
      assert !(g[s[0]].vertex || g[s[0]].edge);
    }
  }

  /** A cell flagged both vertex and edge is exported as a node only. */
  lemma BothFlagsExportAsNode(g: Children, i: nat)
    requires i < |g| && g[i].vertex && g[i].edge
    ensures i in Positions(g, VertexClass)
    ensures i !in Positions(g, EdgeClass)
    ensures exists j :: 0 <= j < |Export(g).nodes| && Export(g).nodes[j] == NodeOf(g[i], i)
  {
    ExportNodesInOrder(g);
    var p := Positions(g, VertexClass);
    var j :| 0 <= j < |p| && p[j] == i;
    assert Export(g).nodes[j] == NodeOf(g[i], i);
  }

  /** Exported node ids are never empty, and the ids made up for vertices
      without one differ from each other. */
  lemma ExportNodeIds(g: Children)
    ensures |Export(g).nodes| == |Positions(g, VertexClass)|
    ensures forall j :: 0 <= j < |Export(g).nodes| ==> Export(g).nodes[j].id != ""
    ensures var p := Positions(g, VertexClass);
      forall j, j' :: 0 <= j < j' < |p| && g[p[j]].id == "" && g[p[j']].id == ""
        ==> Export(g).nodes[j].id != Export(g).nodes[j'].id
  {
    ExportNodesInOrder(g);
    var p := Positions(g, VertexClass);
    var w := Export(g);
    forall j, j' | 0 <= j < j' < |p| && g[p[j]].id == "" && g[p[j']].id == ""
      ensures w.nodes[j].id != w.nodes[j'].id
    {
      assert w.nodes[j].id == FallbackPrefix + Decimal(p[j]);
      assert w.nodes[j'].id == FallbackPrefix + Decimal(p[j']);
      if w.nodes[j].id == w.nodes[j'].id {
        PrefixedDecimalInjective(FallbackPrefix, p[j], p[j']);
      }
    }
  }

  /** Exporting after one more child: the earlier records are kept and the
      new child contributes at most one record at the end of its list. */
  lemma ExportSnoc(g: Children, c: Cell)
    ensures Classify(c) == VertexClass ==>
      Export(g + [c]) == Workflow(Export(g).nodes + [NodeOf(c, |g|)], Export(g).edges)
    ensures Classify(c) == EdgeClass ==>
      Export(g + [c]) == Workflow(Export(g).nodes, Export(g).edges + [EdgeOf(c)])
    ensures Classify(c) == Skipped ==> Export(g + [c]) == Export(g)
  {
    assert (g + [c])[..|g|] == g;
  }
}

=== FILE: interplay.dfy ===
/**
  How the pieces meet: what a palette drop does to the export, which cells
  of a diagram built from palette drops and label edits are editable, and
  whether a label edit keeps the at-most-one Start and End rule that the
  drops keep.
 */
module Interplay {
  import opened Strings
  import opened Cells
  import opened Records
  import opened Editing
  import opened Palette
  import opened Exporter

  // ----- Drops seen through the export -----

  /** After an arrow drop the export gains, at the ends of its lists, the
      two anchor nodes and one unlabelled edge whose source and target are
      the anchors' ids; the earlier records are unchanged. */
  lemma ExportAfterArrow(g: Children, at: Point, ids: NewIds)
    ensures Export(DropArrow(g, at, ids).children).nodes
         == Export(g).nodes + [NodeOf(Anchor(ids.first, at.x, at.y), |g|)]
                            + [NodeOf(Anchor(ids.second, at.x + 100, at.y), |g| + 1)]
    ensures Export(DropArrow(g, at, ids).children).edges
         == Export(g).edges + [Edge(Some(ids.first), Some(ids.second), "", ArrowStyle)]
  {
    var v1 := Anchor(ids.first, at.x, at.y);
    var v2 := Anchor(ids.second, at.x + 100, at.y);
    var e := ArrowEdge(ids.third, ids.first, ids.second);
    var g1 := g + [v1];
    var g2 := g1 + [v2];
    ArrowAppends(g, at, ids);
    ExportSnoc(g, v1);
    ExportSnoc(g1, v2);
    ExportSnoc(g2, e);
    assert Export(g2).nodes == Export(g).nodes + [NodeOf(v1, |g|)] + [NodeOf(v2, |g| + 1)];
    assert Export(g2).edges == Export(g).edges;
  }

  /** When the anchors have ids, the exported arrow joins exactly the two
      nodes exported for them. */
  lemma ExportedArrowJoinsAnchors(g: Children, at: Point, ids: NewIds)
    requires ids.first != "" && ids.second != ""
    ensures var w := Export(DropArrow(g, at, ids).children);
      && |w.nodes| >= 2 && |w.edges| >= 1
      && w.edges[|w.edges| - 1].source == Some(w.nodes[|w.nodes| - 2].id)
      && w.edges[|w.edges| - 1].target == Some(w.nodes[|w.nodes| - 1].id)
  {
    ExportAfterArrow(g, at, ids);
  }

  /** An accepted vertex drop adds one node record at the end of the node
      list, carrying the shape's label, style and size at the drop point;
      a rejected drop leaves the export as it was. */
  lemma ExportAfterVertexDrop(g: Children, t: Template, at: Point, id: string)
    ensures var r := DropVertex(g, t, at, id);
      r.returned.None? ==> Export(r.children) == Export(g)
    ensures var r := DropVertex(g, t, at, id);
      r.returned.Some? ==> Export(r.children) == Workflow(
        Export(g).nodes + [Node(NodeId(r.returned.value, |g|), t.name,
                                at.x, at.y, t.width, t.height, t.style)],
        Export(g).edges)
  {
    var r := DropVertex(g, t, at, id);
    if r.returned.Some? {
      ExportSnoc(g, r.returned.value);
    }
  }

  // ----- Editability of a diagram built from drops and label edits -----

  /** A cell one of the palette drops creates. */
  predicate DroppedCell(c: Cell) {
    || (IsLabelledVertex(c, "Start") && !c.edge && c.style == StartStyle)
    || (IsLabelledVertex(c, "End") && !c.edge && c.style == EndStyle)
    || (IsLabelledVertex(c, "Progress") && !c.edge && c.style == ProgressStyle)
    || (IsLabelledVertex(c, "") && !c.edge && c.style == AnchorStyle)
    || (!c.vertex && c.edge && c.value == Str("") && c.style == ArrowStyle)
  }

  /** A cell that drops and label edits can produce: a dropped cell, or a
      Progress shape under any string label. */
  predicate PaletteCell(c: Cell) {
    || DroppedCell(c)
    || (c.vertex && !c.edge && c.value.Str? && c.style == ProgressStyle)
  }

  /** A style without the character `2` cannot carry the Progress fill. */
  lemma LacksProgressFill(style: string)
    requires '2' !in style
    ensures !Includes(style, ProgressFill)
  {
    assert ProgressFill[11] == '2';
    if Includes(style, ProgressFill) {
      IncludedCharacters(style, ProgressFill, '2');
    }
  }

  /** The Progress shape's style carries the Progress fill. */
  lemma ProgressStyleHasFill()
    ensures Includes(ProgressStyle, ProgressFill)
  {
    assert ProgressStyle[14..14 + |ProgressFill|] == ProgressFill;
    assert OccursAt(ProgressStyle, ProgressFill, 14);
  }

  /** A vertex dropped as a Progress shape stays editable whatever it is
      renamed to, because its style keeps the Progress fill. */
  lemma ProgressShapeEditableAfterRename(c: Cell, name: string)
    requires IsLabelledVertex(c, "Progress") && c.style == ProgressStyle
    ensures IsCellEditable(c.(value := Str(name)))
  {
    ProgressStyleHasFill();
  }

  /** A vertex whose style has no `2` and whose value is not `Progress` is
      read-only. */
  lemma ReadOnlyWithoutFill(c: Cell)
    requires '2' !in c.style && c.value != Str("Progress")
    ensures !IsCellEditable(c)
  {
    LacksProgressFill(c.style);
  }

  /** The Start, End and anchor styles have no `2`; the Progress style has
      one, so it differs from all three. */
  lemma StylesWithoutTwo()
    ensures '2' !in StartStyle
    ensures '2' !in EndStyle
    ensures '2' !in AnchorStyle
    ensures '2' in ProgressStyle
  {
    assert ProgressStyle[25] == '2';
  }

  /** Among the cells drops and edits produce, a cell is editable iff it is
      a vertex with the Progress shape's style, whatever its label. */
  lemma PaletteCellEditable(c: Cell)
    requires PaletteCell(c)
    ensures IsCellEditable(c) <==> c.vertex && c.style == ProgressStyle
  {
    StylesWithoutTwo();
    if c.style == ProgressStyle {
      ProgressStyleHasFill();
    } else if c.style != ArrowStyle {
      ReadOnlyWithoutFill(c);
    }
  }

  /** Among the cells the drops create, exactly the Progress vertices are
      editable. */
  lemma DroppedCellEditable(c: Cell)
    requires DroppedCell(c)
    ensures IsCellEditable(c) <==> IsLabelledVertex(c, "Progress")
  {
    PaletteCellEditable(c);
    StylesWithoutTwo();
  }

  /** Palette drops only ever add dropped cells. */
  lemma {:induction false} ReplayKeepsDroppedCells(g: Children, es: seq<DropEvent>)
    requires forall i :: 0 <= i < |g| ==> DroppedCell(g[i])
    ensures forall i :: 0 <= i < |Replay(g, es)| ==> DroppedCell(Replay(g, es)[i])
    decreases |es|
  {
    if |es| > 0 {
      var r := Apply(g, es[0]).children;
      assert forall i :: 0 <= i < |r| ==> DroppedCell(r[i]) by {
        match es[0].item
        case StartItem =>
        case EndItem =>
        case ProgressItem =>
        case ArrowItem =>
      }
      ReplayKeepsDroppedCells(r, es[1..]);
    }
  }

  /** In a diagram built from palette drops alone, a cell is editable iff
      it is a vertex labelled `Progress`: Start, End, the arrow's anchors
      and the arrow itself are read-only. */
  lemma DropsEditableExactlyProgress(es: seq<DropEvent>)
    ensures var g := Replay([], es);
      forall i :: 0 <= i < |g| ==> (IsCellEditable(g[i]) <==> IsLabelledVertex(g[i], "Progress"))
  {
    var g := Replay([], es);
    ReplayKeepsDroppedCells([], es);
    forall i | 0 <= i < |g|
      ensures IsCellEditable(g[i]) <==> IsLabelledVertex(g[i], "Progress")
    {
      DroppedCellEditable(g[i]);
    }
  }

  /** What a user does to the diagram: a palette drop, or an in-place label
      edit of the child at `index`. */
  datatype Action = Drop(event: DropEvent) | Rename(index: nat, name: string)

  /** One action. The widget opens its editor only on an existing, editable
      cell, so renaming a missing or read-only cell changes nothing. */
  function Step(g: Children, a: Action): Children {
    match a
    case Drop(e) => Apply(g, e).children
    case Rename(i, name) =>
      if i < |g| && EditLabel(g, i, name).Some? then EditLabel(g, i, name).value else g
  }

  /** A sequence of actions, in order. */
  function Run(g: Children, acts: seq<Action>): Children
    decreases |acts|
  {
    if |acts| == 0 then g else Run(Step(g, acts[0]), acts[1..])
  }

  /** A palette drop keeps every child a palette cell. */
  lemma ApplyKeepsPaletteCells(g: Children, e: DropEvent)
    requires forall i :: 0 <= i < |g| ==> PaletteCell(g[i])
    ensures forall i :: 0 <= i < |Apply(g, e).children| ==> PaletteCell(Apply(g, e).children[i])
  {
    match e.item
    case StartItem =>
    case EndItem =>
    case ProgressItem =>
    case ArrowItem =>
  }

  /** An accepted label edit keeps every child a palette cell: only a
      Progress shape is editable, and renaming it leaves a Progress shape. */
  lemma EditKeepsPaletteCells(g: Children, i: nat, name: string)
    requires i < |g| && forall k :: 0 <= k < |g| ==> PaletteCell(g[k])
    requires EditLabel(g, i, name).Some?
    ensures forall k :: 0 <= k < |g| ==> PaletteCell(EditLabel(g, i, name).value[k])
  {
    PaletteCellEditable(g[i]);
  }

  /** Any sequence of drops and edits keeps every child a palette cell. */
  lemma {:induction false} RunKeepsPaletteCells(g: Children, acts: seq<Action>)
    requires forall i :: 0 <= i < |g| ==> PaletteCell(g[i])
    ensures forall i :: 0 <= i < |Run(g, acts)| ==> PaletteCell(Run(g, acts)[i])
    decreases |acts|
  {
    if |acts| > 0 {
      var h := Step(g, acts[0]);
      match acts[0] {
        case Drop(e) =>
          ApplyKeepsPaletteCells(g, e);
        case Rename(i, name) =>
          if i < |g| && EditLabel(g, i, name).Some? {
            EditKeepsPaletteCells(g, i, name);
          }
      }
      RunKeepsPaletteCells(h, acts[1..]);
    }
  }

  /** In a diagram built from drops and label edits, a cell is editable iff
      it is a vertex with the Progress shape's style: the Progress fill, not
      the label, is what keeps a renamed Progress vertex editable, and no
      other palette shape can ever be edited. */
  lemma EditableExactlyProgressShapes(acts: seq<Action>)
    ensures var g := Run([], acts);
      forall i :: 0 <= i < |g| ==> (IsCellEditable(g[i]) <==> g[i].vertex && g[i].style == ProgressStyle)
  {
    var g := Run([], acts);
    RunKeepsPaletteCells([], acts);
    forall i | 0 <= i < |g|
      ensures IsCellEditable(g[i]) <==> g[i].vertex && g[i].style == ProgressStyle
    {
      PaletteCellEditable(g[i]);
    }
  }

  // ----- Label edits against the cardinality rule -----

  /** Replacing one child changes a count by what leaves and what enters. */
  lemma {:induction false} CountUpdate(g: Children, i: nat, c: Cell, name: string)
    requires i < |g|
    ensures CountLabelled(g[i := c], name)
         == CountLabelled(g, name)
            - (if IsLabelledVertex(g[i], name) then 1 else 0)
            + (if IsLabelledVertex(c, name) then 1 else 0)
    decreases |g|
  {
    var last := |g| - 1;
    var h := g[i := c];
    assert h[..last] == if i == last then g[..last] else g[..last][i := c];
    if i < last {
      CountUpdate(g[..last], i, c, name);
    }
  }

  /** Whether renaming an editable cell to `name` creates a second vertex
      with the guarded label `guarded`. */
  predicate Duplicates(g: Children, i: nat, name: string, guarded: string)
    requires i < |g|
  {
    name == guarded && !IsLabelledVertex(g[i], guarded) && HasNode(g, guarded)
  }

  /** A label edit on an editable cell keeps the cardinality rule iff it
      does not rename a cell to Start while another Start vertex exists, or
      to End while another End vertex exists. The editability rule does not
      prevent either, so the rule the drops keep is not kept by edits. */
  lemma EditKeepsRuleIff(g: Children, i: nat, name: string)
    requires i < |g| && CardinalityRule(g) && IsCellEditable(g[i])
    ensures EditLabel(g, i, name).Some?
    ensures CardinalityRule(EditLabel(g, i, name).value)
        <==> !Duplicates(g, i, name, "Start") && !Duplicates(g, i, name, "End")
  {
    var c := g[i].(value := Str(name));
    assert EditLabel(g, i, name).value == g[i := c];
    CountUpdate(g, i, c, "Start");
    CountUpdate(g, i, c, "End");
  }

  /** A concrete instance: drop Start, drop Progress, rename the Progress
      vertex to Start. The drops keep the rule; the edit breaks it. */
  lemma RenameProgressToStart(at: Point, a: string, b: string)
    ensures var g := Replay([], [DropEvent(StartItem, at, NewIds(a, "", "")),
                                 DropEvent(ProgressItem, at, NewIds(b, "", ""))]);
      && |g| == 2
      && CardinalityRule(g)
      && IsCellEditable(g[1])
      && EditLabel(g, 1, "Start").Some?
      && CountLabelled(EditLabel(g, 1, "Start").value, "Start") == 2
  {
    var e1 := DropEvent(StartItem, at, NewIds(a, "", ""));
    var e2 := DropEvent(ProgressItem, at, NewIds(b, "", ""));
    var g1 := Apply([], e1).children;
    var g := Apply(g1, e2).children;
    assert [e1, e2][1..] == [e2];
    assert Replay([], [e1, e2]) == Replay(g1, [e2]);
    assert Replay(g1, [e2]) == Replay(g, []);
    assert |g| == 2;
    ReplayKeepsRule([], [e1, e2]);
    EditKeepsRuleIff(g, 1, "Start");
    var g' := EditLabel(g, 1, "Start").value;
    assert g'[..1][..0] == [];
    assert g'[..1] == [g'[0]];
  }
}

=== FILE: palette.dfy ===
/**
  The palette: the label lookup used by the drop guards, the vertex drop
  factory shared by the Start, End and Progress shapes, the arrow drop, and
  the cardinality rule that the drops keep (at most one Start vertex and at
  most one End vertex).
 */
module Palette {
  import opened Cells

  /** `hasNode(name)`: some direct child of the default parent is a vertex
      whose value is exactly `name`. */
  function HasNode(g: Children, name: string): (r: bool)
    ensures r <==> exists i :: 0 <= i < |g| && IsLabelledVertex(g[i], name)
  {
    ScanFrom(g, name, 0)
  }

  /** The scan of `HasNode` from child index `from` onward. */
  function ScanFrom(g: Children, name: string, from: nat): (r: bool)
    requires from <= |g|
    ensures r <==> exists i :: from <= i < |g| && IsLabelledVertex(g[i], name)
    decreases |g| - from
  {
    if from == |g| then false
    else if IsLabelledVertex(g[from], name) then true
    else ScanFrom(g, name, from + 1)
  }

  /** The number of vertices whose value is exactly `name`; it is zero
      exactly when `HasNode` finds none. */
  function CountLabelled(g: Children, name: string): (n: nat)
    ensures n <= |g|
    ensures n == 0 <==> !HasNode(g, name)
  {
    if |g| == 0 then 0
    else
      var init := g[..|g| - 1];
      assert forall i :: 0 <= i < |init| ==> init[i] == g[i];
      CountLabelled(init, name) + (if IsLabelledVertex(g[|g| - 1], name) then 1 else 0)
  }

  /** Counting distributes over appending children. */
  lemma {:induction false} CountAppend(g: Children, more: Children, name: string)
    ensures CountLabelled(g + more, name) == CountLabelled(g, name) + CountLabelled(more, name)
    decreases |more|
  {
    if |more| > 0 {
      var init := more[..|more| - 1];
      assert (g + more)[..|g + more| - 1] == g + init;
      CountAppend(g, init, name);
    } else {
      assert g + more == g;
    }
  }

  // The styles of the palette shapes, each written as its `;`-terminated
  // entries joined together (so `StartStyle` is the string
  // "shape=rectangle;fillColor=#4CAF50;fontColor=#FFFFFF;rounded=1;").

  const StartStyle := "shape=rectangle;" + "fillColor=#4CAF50;" + "fontColor=#FFFFFF;" + "rounded=1;"
  const EndStyle := "shape=rectangle;" + "fillColor=#F44336;" + "fontColor=#FFFFFF;" + "rounded=1;"
  const ProgressStyle := "shape=ellipse;" + "fillColor=#2196F3;" + "fontColor=#FFFFFF;"
  /** The invisible anchor vertices at both ends of a dropped arrow. */
  const AnchorStyle := "fillColor=none;" + "strokeColor=none;"
  const ArrowStyle := "endArrow=block;" + "strokeColor=#333333;" + "strokeWidth=2;"

  /** The drop type of a vertex shape; only `start` and `end` are guarded. */
  datatype Kind = StartKind | EndKind | ProgressKind | GenericKind

  /** The parameters of one vertex shape on the palette. */
  datatype Template = Template(name: string, style: string, width: int, height: int, kind: Kind)

  const StartShape := Template("Start", StartStyle, 100, 40, StartKind)
  const EndShape := Template("End", EndStyle, 100, 40, EndKind)
  const ProgressShape := Template("Progress", ProgressStyle, 100, 40, ProgressKind)

  /** The drop position, in the widget's coordinates. */
  datatype Point = Point(x: int, y: int)

  /** The children after a drop, and the cell the drop function returns
      (`None` for the `null` of a rejected drop). */
  datatype DropResult = DropResult(children: Children, returned: Option<Cell>)

  /** Whether the drop guard turns a drop of shape kind `k` away. */
  predicate Guarded(g: Children, k: Kind) {
    (k == StartKind && HasNode(g, "Start")) || (k == EndKind && HasNode(g, "End"))
  }

  /** A vertex drop: a `start` drop while a Start vertex exists, or an `end`
      drop while an End vertex exists, returns null and changes nothing;
      every other drop appends one vertex with the shape's label, style and
      size at the drop point and returns it. `id` is the id the widget
      assigns to the new cell. */
  function DropVertex(g: Children, t: Template, at: Point, id: string): (r: DropResult)
    ensures r.returned.None? <==> Guarded(g, t.kind)
    ensures t.kind == ProgressKind || t.kind == GenericKind ==> r.returned.Some?
    ensures r.returned.None? ==> r.children == g
    ensures r.returned.Some? ==>
      && r.children == g + [r.returned.value]
      && r.returned.value.id == id
      && IsLabelledVertex(r.returned.value, t.name)
      && !r.returned.value.edge
      && r.returned.value.style == t.style
      && r.returned.value.geometry == Geometry(at.x, at.y, t.width, t.height)
      && r.returned.value.source.None? && r.returned.value.target.None?
  {
    if t.kind == StartKind && HasNode(g, "Start") then
      DropResult(g, None)
    else if t.kind == EndKind && HasNode(g, "End") then
      DropResult(g, None)
    else
      var v := Cell(id, Str(t.name), t.style, true, false, None, None,
                    Geometry(at.x, at.y, t.width, t.height));
      DropResult(g + [v], Some(v))
  }

  /** The ids the widget assigns to the cells one drop inserts; a vertex
      drop uses only `first`. */
  datatype NewIds = NewIds(first: string, second: string, third: string)

  /** An invisible anchor vertex of a dropped arrow. */
  function Anchor(id: string, x: int, y: int): Cell {
    Cell(id, Str(""), AnchorStyle, true, false, None, None, Geometry(x, y, 40, 20))
  }

  /** The edge of a dropped arrow, from the anchor with id `from` to the
      anchor with id `to`. */
  function ArrowEdge(id: string, from: string, to: string): Cell {
    Cell(id, Str(""), ArrowStyle, false, true, Some(from), Some(to), Geometry(0, 0, 0, 0))
  }

  /** The arrow drop's children, spelled out as three appends. */
  lemma ArrowAppends(g: Children, at: Point, ids: NewIds)
    ensures DropArrow(g, at, ids).children
         == g + [Anchor(ids.first, at.x, at.y)] + [Anchor(ids.second, at.x + 100, at.y)]
              + [ArrowEdge(ids.third, ids.first, ids.second)]
  {
  }

  /** The arrow drop: appends, in order, an anchor at the drop point, an
      anchor 100 units to its right, and an edge from the first anchor to
      the second, and returns the edge. Nothing else changes. */
  function DropArrow(g: Children, at: Point, ids: NewIds): (r: DropResult)
    ensures |r.children| == |g| + 3
    ensures r.children[..|g|] == g
    ensures r.children[|g|] == Anchor(ids.first, at.x, at.y)
    ensures r.children[|g| + 1] == Anchor(ids.second, at.x + 100, at.y)
    ensures r.children[|g| + 2] == ArrowEdge(ids.third, ids.first, ids.second)
    ensures r.children[|g| + 2].edge && !r.children[|g| + 2].vertex
    ensures r.children[|g| + 2].source == Some(ids.first)
    ensures r.children[|g| + 2].target == Some(ids.second)
    ensures r.returned == Some(r.children[|g| + 2])
  {
    var v1 := Anchor(ids.first, at.x, at.y);
    var v2 := Anchor(ids.second, at.x + 100, at.y);
    var e := ArrowEdge(ids.third, v1.id, v2.id);
    DropResult(g + [v1] + [v2] + [e], Some(e))
  }

  /** The four draggable palette entries. */
  datatype Item = StartItem | EndItem | ProgressItem | ArrowItem

  /** One drop of a palette entry at a point. */
  datatype DropEvent = DropEvent(item: Item, at: Point, ids: NewIds)

  /** The effect of one palette drop. */
  function Apply(g: Children, e: DropEvent): DropResult {
    match e.item
    case StartItem => DropVertex(g, StartShape, e.at, e.ids.first)
    case EndItem => DropVertex(g, EndShape, e.at, e.ids.first)
    case ProgressItem => DropVertex(g, ProgressShape, e.at, e.ids.first)
    case ArrowItem => DropArrow(g, e.at, e.ids)
  }

  /** The children after a sequence of palette drops, in order. */
  function Replay(g: Children, es: seq<DropEvent>): Children
    decreases |es|
  {
    if |es| == 0 then g else Replay(Apply(g, es[0]).children, es[1..])
  }

  /** At most one Start vertex and at most one End vertex. */
  predicate CardinalityRule(g: Children) {
    CountLabelled(g, "Start") <= 1 && CountLabelled(g, "End") <= 1
  }

  /** Appending cells that are not Start or End vertices leaves both counts
      as they were. */
  lemma CountUnchangedByOthers(g: Children, more: Children, name: string)
    requires forall k :: 0 <= k < |more| ==> !IsLabelledVertex(more[k], name)
    ensures CountLabelled(g + more, name) == CountLabelled(g, name)
  {
    CountAppend(g, more, name);
    assert !HasNode(more, name);
  }

  /** An accepted vertex drop adds one to the count of its own label and
      leaves every other count alone; a rejected one changes no count. */
  lemma VertexDropCount(g: Children, t: Template, at: Point, id: string, name: string)
    ensures CountLabelled(DropVertex(g, t, at, id).children, name)
         == CountLabelled(g, name)
            + (if DropVertex(g, t, at, id).returned.Some? && t.name == name then 1 else 0)
  {
    var r := DropVertex(g, t, at, id);
    if r.returned.Some? {
      CountAppend(g, [r.returned.value], name);
    }
  }

  /** An arrow drop changes the count of no non-empty label. */
  lemma ArrowDropCount(g: Children, at: Point, ids: NewIds, name: string)
    requires name != ""
    ensures CountLabelled(DropArrow(g, at, ids).children, name) == CountLabelled(g, name)
  {
    var r := DropArrow(g, at, ids);
    var more := r.children[|g|..];
    assert r.children == g + more;
    CountUnchangedByOthers(g, more, name);
  }

  /** One palette drop keeps the cardinality rule. */
  lemma ApplyKeepsRule(g: Children, e: DropEvent)
    requires CardinalityRule(g)
    ensures CardinalityRule(Apply(g, e).children)
  {
    match e.item
    case StartItem =>
      VertexDropCount(g, StartShape, e.at, e.ids.first, "Start");
      VertexDropCount(g, StartShape, e.at, e.ids.first, "End");
    case EndItem =>
      VertexDropCount(g, EndShape, e.at, e.ids.first, "Start");
      VertexDropCount(g, EndShape, e.at, e.ids.first, "End");
    case ProgressItem =>
      VertexDropCount(g, ProgressShape, e.at, e.ids.first, "Start");
      VertexDropCount(g, ProgressShape, e.at, e.ids.first, "End");
    case ArrowItem =>
      ArrowDropCount(g, e.at, e.ids, "Start");
      ArrowDropCount(g, e.at, e.ids, "End");
  }

  /** Any sequence of palette drops keeps the cardinality rule. */
  lemma {:induction false} ReplayKeepsRule(g: Children, es: seq<DropEvent>)
    requires CardinalityRule(g)
    ensures CardinalityRule(Replay(g, es))
    decreases |es|
  {
    if |es| > 0 {
      ApplyKeepsRule(g, es[0]);
      ReplayKeepsRule(Apply(g, es[0]).children, es[1..]);
    }
  }

  /** Starting from an empty diagram, palette drops alone never produce a
      second Start vertex or a second End vertex. */
  lemma DropsKeepOneStartOneEnd(es: seq<DropEvent>)
    ensures CountLabelled(Replay([], es), "Start") <= 1
    ensures CountLabelled(Replay([], es), "End") <= 1
  {
    ReplayKeepsRule([], es);
  }

  /** After a Start drop, accepted or rejected, a Start vertex exists; under
      the cardinality rule it is then the only one. */
  lemma StartDropLeavesExactlyOne(g: Children, at: Point, ids: NewIds)
    requires CardinalityRule(g)
    ensures CountLabelled(Apply(g, DropEvent(StartItem, at, ids)).children, "Start") == 1
  {
    VertexDropCount(g, StartShape, at, ids.first, "Start");
  }

  /** After an End drop, accepted or rejected, exactly one End vertex
      exists under the cardinality rule. */
  lemma EndDropLeavesExactlyOne(g: Children, at: Point, ids: NewIds)
    requires CardinalityRule(g)
    ensures CountLabelled(Apply(g, DropEvent(EndItem, at, ids)).children, "End") == 1
  {
    VertexDropCount(g, EndShape, at, ids.first, "End");
  }
}

=== FILE: records.dfy ===
/**
  The plain records the diagram is exported to.
 */
module Records {
  import opened Cells

  /** An exported vertex; `text` is the record's `label` field (a reserved
      word here). */
  datatype Node = Node(
    id: string,
    text: string,
    x: int,
    y: int,
    width: int,
    height: int,
    style: string)

  /** An exported edge; `text` is its `label` field. The record declares
      `source` and `target` as strings, but the exporter leaves them
      undefined (`None`) for an unconnected end, so they are optional here. */
  datatype Edge = Edge(
    source: Option<string>,
    target: Option<string>,
    text: string,
    style: string)

  /** The `{nodes, edges}` export structure. */
  datatype Workflow = Workflow(nodes: seq<Node>, edges: seq<Edge>)
}

=== FILE: strings.dfy ===
/**
  String helpers the workflow component relies on: JavaScript's
  `String.prototype.includes` and the decimal rendering of a child index
  inside a template literal (`node-${i}`).
 */
module Strings {

  /** `needle` occurs in `hay` starting at position `i`. */
  predicate OccursAt(hay: string, needle: string, i: nat) {
    i + |needle| <= |hay| && hay[i..i + |needle|] == needle
  }

  /** `hay.includes(needle)`: true iff `needle` occurs somewhere in `hay`
      (in particular, the empty string occurs in every string). */
  function Includes(hay: string, needle: string): (r: bool)
    ensures r <==> exists i: nat :: OccursAt(hay, needle, i)
  {
    IncludesFrom(hay, needle, 0)
  }

  /** Left-to-right search for `needle` starting at position `from`. */
  function IncludesFrom(hay: string, needle: string, from: nat): (r: bool)
    ensures r <==> exists i: nat :: from <= i && OccursAt(hay, needle, i)
    decreases |hay| - from
  {
    if from + |needle| > |hay| then
      assert forall i: nat :: from <= i ==> !OccursAt(hay, needle, i);
      false
    else if hay[from..from + |needle|] == needle then
      assert OccursAt(hay, needle, from);
      true
    else
      IncludesFrom(hay, needle, from + 1)
  }

  /** Every character of an included string is a character of the string
      that includes it. */
  lemma IncludedCharacters(hay: string, needle: string, c: char)
    requires Includes(hay, needle)
    requires c in needle
    ensures c in hay
  {
    var i: nat :| OccursAt(hay, needle, i);
    var k :| 0 <= k < |needle| && needle[k] == c;
    assert hay[i + k] == hay[i..i + |needle|][k];
  }

  /** The character for a decimal digit. */
  function DigitChar(d: nat): (c: char)
    requires d < 10
    ensures '0' <= c <= '9'
  {
    ('0' as int + d) as char
  }

  /** The decimal rendering of a natural number, as JavaScript's template
      literals produce it: no sign, no leading zeros. */
  function Decimal(n: nat): (s: string)
    ensures |s| >= 1
    ensures n >= 10 ==> |s| >= 2
    ensures forall k :: 0 <= k < |s| ==> '0' <= s[k] <= '9'
    decreases n
  {
    if n < 10 then [DigitChar(n)] else Decimal(n / 10) + [DigitChar(n % 10)]
  }

  /** The number a string of decimal digits spells, most significant digit
      first; an independent reading of `Decimal`'s output. */
  function DigitsValue(s: string): nat
    requires forall k :: 0 <= k < |s| ==> '0' <= s[k] <= '9'
    decreases |s|
  {
    if |s| == 0 then 0
    else DigitsValue(s[..|s| - 1]) * 10 + (s[|s| - 1] as int - '0' as int)
  }

  /** The rendering spells out exactly `n`, and only `0` itself starts with
      the digit `0`. */
  lemma {:induction false} DecimalValue(n: nat)
    ensures DigitsValue(Decimal(n)) == n
    ensures |Decimal(n)| > 1 ==> Decimal(n)[0] != '0'
    decreases n
  {
    if n >= 10 {
      var s := Decimal(n);
      var t := Decimal(n / 10);
      assert s == t + [DigitChar(n % 10)];
      assert s[..|s| - 1] == t;
      DecimalValue(n / 10);
      assert s[0] == t[0];
      if |t| == 1 {
        assert t[0] == DigitChar(n / 10);
      }
    }
  }

  /** Distinct numbers have distinct decimal renderings. */
  lemma {:induction false} DecimalInjective(a: nat, b: nat)
    requires Decimal(a) == Decimal(b)
    ensures a == b
    decreases a
  {
    if a < 10 && b < 10 {
      assert Decimal(a)[0] == DigitChar(a);
    } else if a >= 10 && b >= 10 {
      var sa, sb := Decimal(a / 10), Decimal(b / 10);
      assert Decimal(a) == sa + [DigitChar(a % 10)];
      assert Decimal(b) == sb + [DigitChar(b % 10)];
      assert |sa| == |sb|;
      assert sa == Decimal(a)[..|sa|];
      assert sb == Decimal(b)[..|sb|];
      DecimalInjective(a / 10, b / 10);
      assert Decimal(a)[|sa|] == DigitChar(a % 10);
      assert Decimal(b)[|sb|] == DigitChar(b % 10);
    }
  }

  /** Prepending a common prefix keeps decimal renderings apart. */
  lemma PrefixedDecimalInjective(prefix: string, a: nat, b: nat)
    requires prefix + Decimal(a) == prefix + Decimal(b)
    ensures a == b
  {
    var sa, sb := prefix + Decimal(a), prefix + Decimal(b);
    assert Decimal(a) == sa[|prefix|..];
    assert Decimal(b) == sb[|prefix|..];
    DecimalInjective(a, b);
  }
}
